=== FILE: README.md ===
# Regress-AI dashboard: analysis state, configuration editing and version history

This project is a Dafny model of the state logic of the Regress-AI dashboard prototype. The dashboard compares an OLD and a NEW LLM endpoint over a list of test questions. The real evaluation engine does not exist: generation, execution, flags, judge, cookedness and insights are canned data released behind timers. What the code does decide precisely is modelled here:

- **`Analysis`** (`src/hooks/useAnalysis.ts`). This is the hook's state record. A run is a composition of pure phase functions: reset, generate, the per-case pending → running → completed loop, flags and score, judge, cookedness, insights, and commit. The commit prepends an immutable snapshot numbered `|versions| + 1`. `LoadVersion` recalls a snapshot.
- **`ConfigPanel`** (`src/components/ConfigPanel.tsx`). It covers the single-field configuration update, the three manual-question list edits, the fallback for the number-of-cases input, and the guard that enables the Run button.
- **`VersionHistory`** (`src/components/VersionHistory.tsx`). It covers the three cookedness colour bands, the 50-character goal preview, the verdict icon, one entry per version in list order, and selecting an entry.
- **`Dashboard`** (`src/pages/Index.tsx`). This is the wiring of the three pieces into user actions. It exists to state that the history a session builds is append-only and well formed.
- **`Types`** mirrors `src/types/index.ts`. **`Wrappers`** holds `Option`. **`Decimal`** models how `${n}` renders a number in an id, and proves the rendering injective.

Timers are dropped: each `await` separates two pure state transitions. Every clock reading a run takes is an input, collected in a `RunClock`: one `Date.now()` per generated question (a function from question index to reading, so the readings may differ), one `Date.now()` for the version id, and the `new Date()` timestamp. A run is atomic in the model, so no two runs overlap. In the application the disabled Run button gives the same guarantee.

Some behaviour of the code is easy to mistake, and the model follows the code:

- `numCases` has no effect: generation uses the manual questions, or exactly five canned ones.
- No configuration is validated, and no run ends in an error.
- The `Error` status exists but is never produced.
- The version number is `versions.length + 1`, not one more than the largest stored number. Under the numbering invariant proved here the two agree.
- The snapshot a run stores has a different judge summary, cookedness factor list and insight than the ones the run displays.

## Model

| member | source | states |
|---|---|---|
| Decimal.NatToString | src/hooks/useAnalysis.ts:35 | the rendering of a number is a non-empty string of decimal digits, a single digit exactly for numbers below 10, starting with `0` only for 0 itself (no leading zeros) |
| Decimal.ParseRendered | src/hooks/useAnalysis.ts:35 | parsing the decimal rendering of `n` gives back `n` |
| Decimal.RenderInjective | src/hooks/useAnalysis.ts:35 | different numbers have different renderings, so the `-${i}` suffix tells indices apart |
| Analysis.CaseId | src/hooks/useAnalysis.ts:35 | an id starts with `tc-`, and the text after its last dash is exactly the decimal index of the case |
| Analysis.GenerateTestCases | src/hooks/useAnalysis.ts:23-38 | count is the number of manual questions when there are any, else exactly 5; question i is manual question i (or canned question i); every case is pending with no responses |
| Analysis.CaseIdInjective | src/hooks/useAnalysis.ts:35 | ids of different positions differ whatever clock readings they carry, because the index after the last dash tells them apart |
| Analysis.GeneratedIdsDistinct | src/hooks/useAnalysis.ts:34-38 | case i carries `tc-<reading i>-<i>` with the clock reading taken for it; the ids of one generation are pairwise distinct and non-empty even when the clock advances between questions |
| Analysis.GenerationReadsOnlyManualQuestions | src/hooks/useAnalysis.ts:23-32 | two configurations with the same manual questions generate the same cases; `numCases` and every other field have no effect |
| Analysis.Complete | src/hooks/useAnalysis.ts:95-104 | a completed case keeps id and question, is completed, and carries `old[i % 5]` and `new[i % 5]` |
| Analysis.MarkRunning | src/hooks/useAnalysis.ts:84-91 | the first update of loop step i changes only position i, to running; length and every other position are unchanged |
| Analysis.MarkCompleted | src/hooks/useAnalysis.ts:95-104 | the second update of loop step i changes only position i, to completed with the canned answers for i; length and every other position are unchanged |
| Analysis.ExecuteUpTo | src/hooks/useAnalysis.ts:81-105 | no step of the loop changes the length of the case list |
| Analysis.RunningView | src/hooks/useAnalysis.ts:84-91 | the list shown while case i runs has the length of the generated list |
| Analysis.CompleteAll | src/hooks/useAnalysis.ts:162-167 | the stored list has one entry per generated case, entry i being case i completed with `old[i % 5]`/`new[i % 5]` |
| Analysis.CompleteIgnoresStatus | src/hooks/useAnalysis.ts:95-104 | completing a case gives the same result whatever status it had before, so the running mark does not leak into the result |
| Analysis.ExecuteUpToShape | src/hooks/useAnalysis.ts:81-105 | after k loop steps the first k cases are completed with their canned answers and the remaining ones are exactly as generated |
| Analysis.WhileRunning | src/hooks/useAnalysis.ts:81-105 | while case i runs, earlier cases are completed, case i is running and later cases are untouched |
| Analysis.ExecutionMatchesSnapshot | src/hooks/useAnalysis.ts:162-167 | the list a version stores equals the live list at the end of the loop |
| Analysis.CaseLifecycle | src/hooks/useAnalysis.ts:81-105 | every generated case goes pending, then running, then completed, with no step skipped; while case i runs all later cases are still pending |
| Analysis.MockFlags | src/hooks/useAnalysis.ts:109-122 | exactly two flags: DETAIL_LOSS/low on the id of case 0 and EDGE_CASE_LOSS/medium on the id of case 2, each `''` when the list is too short |
| Analysis.IdAt | src/hooks/useAnalysis.ts:114 | the flag's case id, `cases[k]?.id` with the empty-string fallback, is the id of case k when that case exists and `''` otherwise |
| Analysis.FlagsOnGeneratedCases | src/hooks/useAnalysis.ts:109-122 | on generated cases the first flag always names case 0 (with the reading taken for it), and the second names no case exactly when one or two manual questions are configured |
| Analysis.LiveDiffersFromSnapshot | src/hooks/useAnalysis.ts:128-184 | the displayed judge summary, cookedness factors and insight differ from the stored ones; verdict, confidence, cookedness score 25 and severity Safe agree |
| Analysis.StartRun | src/hooks/useAnalysis.ts:70-74 | run start sets analyzing and clears flags, judge, cookedness and insights, but keeps the previous score, cases, config and history |
| Analysis.Begin | src/hooks/useAnalysis.ts:69-78 | a run starts in analyzing mode with results cleared and the freshly generated cases on screen; score, config and history are kept |
| Analysis.Executed | src/hooks/useAnalysis.ts:70-105 | after the loop the live list is the all-completed list a version stores; the old score survives; no result is shown yet; history and config are unchanged |
| Analysis.PublishResults | src/hooks/useAnalysis.ts:107-153 | the analysis phases show the two fixed flags on the run's cases, score 35, and the live judge, cookedness and insight records; config, live cases, history and the analyzing flag are untouched |
| Analysis.Snapshot | src/hooks/useAnalysis.ts:156-185 | the snapshot carries the id `v-<reading>` with the commit's clock reading, case id `case-1`, the given number, the run's config and timestamp, the generated cases all completed with their canned answers, the two fixed flags on those cases, score 35, and its own judge, cookedness and insight records |
| Analysis.SnapshotIdsDistinct | src/hooks/useAnalysis.ts:157 | snapshots committed at different clock readings have different ids |
| Analysis.Commit | src/hooks/useAnalysis.ts:187-188 | commit prepends the snapshot to the history, leaves analyzing mode and changes nothing else |
| Analysis.RunAnalysis | src/hooks/useAnalysis.ts:69-189 | one run prepends version `|versions|+1` and keeps older entries; the config is kept and stored; analyzing ends; the live cases equal the stored ones and are all completed |
| Analysis.RunPublishesFlags | src/hooks/useAnalysis.ts:109-122 | a run shows the generated cases all completed, and both its displayed and its stored flags are exactly the two fixed flags on those cases (DETAIL_LOSS/low on case 0, EDGE_CASE_LOSS/medium on case 2) |
| Analysis.RunShowsWhatItStores | src/hooks/useAnalysis.ts:107-184 | after a run one case is shown per generated question; live flags and score equal the stored ones and the score is 35; cookedness is 25/Safe in both places; the verdict agrees but the judge summary, cookedness factors and insight differ |
| Analysis.RunKeepsNumbering | src/hooks/useAnalysis.ts:156-187 | a run keeps entry i of an n-entry history numbered n - i |
| Analysis.RunAllHistory | src/hooks/useAnalysis.ts:156-187 | n runs prepend exactly n versions, leave the older entries untouched and keep the numbering |
| Analysis.FreshHistoryCountsDown | src/hooks/useAnalysis.ts:156-187 | from a fresh dashboard, n runs leave versions n, n-1, ..., 1 |
| Analysis.NumberedIsStrictlyDecreasing | src/hooks/useAnalysis.ts:156-187 | in a numbered history the version numbers are unique, strictly decreasing and between 1 and n |
| Analysis.LoadVersion | src/hooks/useAnalysis.ts:191-199 | recall shows exactly the version's config, cases, flags, score, judge, cookedness and insight, and leaves the history and analyzing flag unchanged |
| Analysis.LoadDeterminedByVersion | src/hooks/useAnalysis.ts:191-199 | the recalled state depends only on the version, the history and the analyzing flag, not on what was shown before |
| Analysis.LoadLastWins | src/hooks/useAnalysis.ts:191-199 | a second recall completely overrides the first; recalling twice is recalling once |
| Analysis.LoadShownIsIdentity | src/hooks/useAnalysis.ts:191-199 | recalling the version a state already shows changes nothing |
| Analysis.ReloadLatestAfterRun | src/hooks/useAnalysis.ts:156-199 | recalling the version a run just stored restores the same config, cases, flags and score, but not the judge, cookedness or insight the run displayed |
| ConfigPanel.UpdateConfig | src/components/ConfigPanel.tsx:21-23 | the edited field reads back the new value and every other field reads back its old value |
| ConfigPanel.FieldsDetermineConfig | src/types/index.ts:49-57 | two configurations that agree on all seven fields are equal |
| ConfigPanel.UpdateWithCurrentValue | src/components/ConfigPanel.tsx:21-23 | writing back the value a field already has leaves the configuration equal |
| ConfigPanel.SecondEditWins | src/components/ConfigPanel.tsx:21-23 | two edits of the same field equal the second edit alone |
| ConfigPanel.DistinctEditsCommute | src/components/ConfigPanel.tsx:21-23 | edits of different fields commute |
| ConfigPanel.AppendBlank | src/components/ConfigPanel.tsx:25-27 | adding a question grows the list by one, keeps the prefix and ends in `''` |
| ConfigPanel.ReplaceAt | src/components/ConfigPanel.tsx:29-33 | replacing position i sets it to the new text; length and every other position are unchanged |
| ConfigPanel.RemoveAtSlices | src/components/ConfigPanel.tsx:35-37 | `RemoveAt`, the literal index filter `filter((_, i) => i !== index)`, removes exactly element i when i is valid, and leaves the list unchanged otherwise |
| ConfigPanel.RemoveAtElements | src/components/ConfigPanel.tsx:35-37 | a valid removal shortens the list by one, keeps the elements before i and shifts the later ones down by one, in order |
| ConfigPanel.AppendThenRemoveLast | src/components/ConfigPanel.tsx:25-37 | adding a blank question and then removing the last position restores the original list |
| ConfigPanel.RemoveForgetsReplace | src/components/ConfigPanel.tsx:29-37 | removing a position after editing it gives the same list as removing it without the edit |
| ConfigPanel.AddManualQuestion | src/components/ConfigPanel.tsx:25-27 | the Add button appends `''` to the manual questions and changes no other field |
| ConfigPanel.UpdateManualQuestion | src/components/ConfigPanel.tsx:29-33 | typing into an existing question i replaces only that question and changes no other field |
| ConfigPanel.RemoveManualQuestion | src/components/ConfigPanel.tsx:35-37 | a delete removes exactly question i when i is valid; an out-of-range index leaves the configuration equal; no other field changes |
| ConfigPanel.NumCasesFromInput | src/components/ConfigPanel.tsx:130 | the stored count is never 0: a failed parse or a 0 becomes 10, and every other parsed integer is stored unchanged, even outside 1..50 |
| ConfigPanel.ChangeNumCases | src/components/ConfigPanel.tsx:125-130 | the number input's handler stores that count and changes no other field |
| ConfigPanel.RunEnabled | src/components/ConfigPanel.tsx:174 | Run is enabled exactly when no run is in progress and every field the guard reads (both endpoints and the goal) is non-empty |
| ConfigPanel.RunEnabledIgnoresOtherFields | src/components/ConfigPanel.tsx:172-174 | editing the template, path, count or questions never changes whether Run is enabled |
| ConfigPanel.ClearingGuardDisables | src/components/ConfigPanel.tsx:172-174 | emptying either endpoint or the goal disables Run |
| VersionHistory.CookednessColor | src/components/VersionHistory.tsx:26-30 | total three-way banding: success exactly for scores ≤ 30, warning exactly for 31..60, destructive exactly above 60 |
| VersionHistory.BandMonotone | src/components/VersionHistory.tsx:26-30 | a higher score never maps to a safer band |
| VersionHistory.BandBoundaries | src/components/VersionHistory.tsx:27-29 | 30 is success, 31 and 60 are warning, 61 is destructive |
| VersionHistory.GoalPreview | src/components/VersionHistory.tsx:74 | the preview is a prefix of the goal of length min(50, goal length) |
| VersionHistory.EntryTitle | src/components/VersionHistory.tsx:74 | an entry's title is the whole goal plus `...` when the goal has at most 50 characters, else its first 50 characters plus `...` |
| VersionHistory.VerdictIconOf | src/components/VersionHistory.tsx:15-24 | Improved and Regression each get their own icon; every other verdict gets the neutral icon |
| VersionHistory.EntryFor | src/components/VersionHistory.tsx:51-100 | an entry shows its version's number, goal preview plus `...`, verdict and verdict icon, cookedness score and band, and case count, with a connector unless it is last |
| VersionHistory.Render | src/components/VersionHistory.tsx:43-68 | the empty placeholder appears exactly when there are no versions; otherwise there is one entry per version in list order, entry k being exactly the entry of version k (badge, title, verdict, icon, score, band, case count), with a connector on every entry but the last |
| VersionHistory.RenderNumberedHistory | src/components/VersionHistory.tsx:66-68 | for a numbered history the badges read n down to 1 and only the entry for version 1 has no connector |
| VersionHistory.SelectEntry | src/components/VersionHistory.tsx:54-57 | selecting an entry loads exactly that entry's version, leaves the history unchanged and closes the sheet |
| VersionHistory.SelectLoadsListedVersion | src/components/VersionHistory.tsx:51-57 | selecting the k-th listed entry loads the k-th stored version |
| Dashboard.Apply | src/pages/Index.tsx:39-75 | an edit is the configuration update: the edited field reads back its value, every other config field, the history, the cases and every displayed result are unchanged; an enabled Run is exactly one run of the analysis, which adds a version, and a disabled one is a no-op; picking an existing entry shows its version, a missing one is a no-op |
| Dashboard.ApplyKeepsHistory | src/pages/Index.tsx:39-75 | each user action keeps the history well formed, adds at most one version at the front, and leaves analyzing mode off |
| Dashboard.SessionHistoryAppendOnly | src/pages/Index.tsx:39-75 | over a session the history only grows at the front, by at most one version per action. It stays numbered, every stored config passed the Run guard, and every stored case is completed |
| Dashboard.FreshPageCannotRun | src/hooks/useAnalysis.ts:12-20 | the default configuration has empty endpoints and goal, so pressing Run on a fresh page does nothing |
| Dashboard.FreshSessionWellFormed | src/pages/Index.tsx:39-75 | any session from a fresh page ends with a well-formed history of at most one version per action |

## Left out

- Timers and `async`/`await` are left out. Each run is one atomic pure transition, so React batching and the `useCallback` closure that captures `versions.length` are not modelled. Overlapping runs are not modelled; the disabled Run button prevents them.
- A history entry can be picked while a run is in flight. The run's later per-case updates then apply to the recalled list. This interleaving is not modelled, because runs are atomic.
- Only the Run button is disabled during a run; the configuration inputs stay live. An edit made during a run leaves the displayed config different from the `{ ...config }` the version stores (src/hooks/useAnalysis.ts:161), which the run captured at its start. This interleaving is not modelled.
- Analysis.RunAnalysis: its `r.config == r.versions[0].config` holds only because runs are atomic here. In the application an edit during the run breaks it.
- Clock readings are left out. The per-question `Date.now()` readings, the version id's `Date.now()` and `new Date()` are the inputs of `RunClock`. `toLocaleString` is not modelled.
- Integer parsing of the number input is left out. `parseInt` string semantics are not modelled; the parse result is an input `Option<int>`, with `None` standing for NaN.
- Decimal.NatToString: does not model the exponent notation JavaScript uses for numbers of 10^21 and above. Clock readings and indices never get that large.
- VersionHistory.GoalPreview: counts Dafny characters, not UTF-16 code units. The two differ only for characters outside the Basic Multilingual Plane.
- ConfigPanel.UpdateManualQuestion: requires a valid index. The panel calls it only from the rendered list of questions. JavaScript's writing past the end, which leaves holes in the array, is not modelled.
- ConfigPanel.UpdateConfig: each key is paired with a value of that key's type. The source's `value: any` would accept an ill-typed value, but no call site passes one.
- There are no HTTP calls, no `{{question}}` template rendering, no extraction-path navigation, no scoring or judging logic, and no validation of URLs or templates. None of these exist in the code: endpoint, template and path are only stored strings.
- Rendering, styling, icons and UI components are left out. The switch helpers of ResultsPanel, ResponseComparison and TestCaseList, the Header, and the page layout are presentation only.
- The `AnalysisCase` type (src/types/index.ts:59-64) is left out because nothing uses it.

=== FILE: analysis.dfy ===
/**
 * The analysis hook: the dashboard's state record, the mocked run
 * (reset, generate, per-case execution, flags, judge, cookedness, insights,
 * version commit) and the recall of a stored version.
 *
 * The run's timers are dropped: each `await` separates two pure state
 * transitions. The clock readings a run takes are inputs (`RunClock`).
 *
 * The canned texts are written as concatenations of shorter literals, which
 * keeps the verifier's work on them small; each concatenation spells the
 * application's text exactly.
 */
module Analysis {
  import opened Wrappers
  import opened Types
  import Decimal

  /** The configuration the dashboard starts with. */
  const DefaultConfig := AnalysisConfig(
    "",
    "",
    "{\"prompt\": \"{{question}}\"}",
    "response",
    "",
    [],
    10)

  /** The questions used when no manual question is configured. */
  const MockQuestions: seq<string> := [
    "What is the capital of France?",
    "Explain quantum computing in " + "simple terms.",
    "What are the risks of " + "investing in cryptocurrency?",
    "How do I handle user " + "authentication securely?",
    "What are the legal " + "implications of AI-generated " + "content?"
  ]

  /** Canned OLD-endpoint answers, reused cyclically by case index. */
  const MockOld: seq<string> := [
    "Paris is the capital of France.",
    "Quantum computing uses " + "quantum bits or qubits which " + "can exist in superposition.",
    "Cryptocurrency investments " + "carry high volatility risks.",
    "Use secure password hashing " + "and implement proper session " + "management.",
    "AI-generated content raises " + "complex copyright questions."
  ]

  /** Canned NEW-endpoint answers, reused cyclically by case index. */
  const MockNew: seq<string> := [
    "Paris is the capital city of " + "France, located in the " + "north-central part of the " + "country.",
    "Quantum computing leverages " + "quantum mechanics principles " + "like superposition and " + "entanglement.",
    "Crypto investments are " + "highly volatile. Consider " + "regulatory risks and " + "potential fraud.",
    "Implement OAuth 2.0, use " + "bcrypt for passwords, and " + "enable MFA for critical " + "operations.",
    "The legal status of AI " + "content varies by " + "jurisdiction. Some may lack " + "copyright protection."
  ]

  /** The deterministic score every run reports. */
  const MockScore := 35

  /**
   * The readings of the clock one run takes: `generatedAt(i)` is the
   * `Date.now()` read while generating the id of question `i` (one reading
   * per question, so they may differ), `committedAt` the `Date.now()` for the
   * version id, and `timestamp` the commit's `new Date()`.
   */
  datatype RunClock = RunClock(generatedAt: nat -> nat, committedAt: nat, timestamp: nat)

  /** Everything the hook holds. `None` is the source's `null`. */
  datatype State = State(
    config: AnalysisConfig,
    isAnalyzing: bool,
    testCases: seq<TestCase>,
    deterministicFlags: seq<DeterministicFlag>,
    deterministicScore: int,
    judgeResult: Option<JudgeResult>,
    cookedness: Option<CookednessResult>,
    insights: Option<Insight>,
    versions: seq<AnalysisVersion>)

  const InitialState := State(DefaultConfig, false, [], [], 0, None, None, None, [])

  // ---------------------------------------------------------------------
  // Test case generation
  // ---------------------------------------------------------------------

  /**
   * The id of case `i` when the clock read `now` while mapping it:
   * `tc-<now>-<i>`. The index is the digit run after the last dash.
   */
  function CaseId(now: nat, i: nat): (id: string)
    ensures |id| > 3 && id[..3] == "tc-"
    ensures var d := Decimal.NatToString(i);
      |d| < |id| && id[|id| - |d| - 1] == '-' && id[|id| - |d|..] == d
  {
    "tc-" + Decimal.NatToString(now) + "-" + Decimal.NatToString(i)
  }

  /**
   * The manual questions when there are any, otherwise the five canned ones.
   * `numCases` plays no part. The clock is read afresh for every question:
   * `stamps(i)` is the reading taken while mapping question `i`.
   */
  function GenerateTestCases(config: AnalysisConfig, stamps: nat -> nat): (cases: seq<TestCase>)
    ensures |config.manualQuestions| > 0 ==> |cases| == |config.manualQuestions|
    ensures |config.manualQuestions| == 0 ==> |cases| == 5
    ensures forall i :: 0 <= i < |cases| ==>
      cases[i].question == (if |config.manualQuestions| > 0 then config.manualQuestions[i] else MockQuestions[i])
    ensures forall i :: 0 <= i < |cases| ==>
      cases[i].status == Pending && cases[i].oldResponse.None? && cases[i].newResponse.None?
  {
    var questions := if |config.manualQuestions| > 0 then config.manualQuestions else MockQuestions;
    seq(|questions|, i requires 0 <= i < |questions| => TestCase(CaseId(stamps(i), i), questions[i], None, None, Pending))
  }

  /** The position of the last dash in `s`, or -1 when there is none. */
  function LastDash(s: string): (k: int)
    ensures -1 <= k < |s|
    ensures 0 <= k ==> s[k] == '-'
    ensures forall j :: k < j < |s| ==> s[j] != '-'
  {
    if |s| == 0 then -1
    else if s[|s| - 1] == '-' then |s| - 1
    else LastDash(s[..|s| - 1])
  }

  /** A dash followed by digits: the last dash is that one. */
  lemma {:induction false} LastDashBeforeDigits(p: string, d: string)
    requires Decimal.AllDigits(d)
    ensures LastDash(p + "-" + d) == |p|
    decreases |d|
  {
    var s := p + "-" + d;
    if |d| == 0 {
      assert s[|s| - 1] == '-';
    } else {
      var shorter := d[..|d| - 1];
      assert s[..|s| - 1] == p + "-" + shorter;
      assert s[|s| - 1] == d[|d| - 1];
      LastDashBeforeDigits(p, shorter);
    }
  }

  /** Two strings that end in a dash followed by digits end in the same digits. */
  lemma DigitSuffixDetermined(p1: string, d1: string, p2: string, d2: string)
    requires Decimal.AllDigits(d1) && Decimal.AllDigits(d2)
    requires p1 + "-" + d1 == p2 + "-" + d2
    ensures d1 == d2
  {
    var s := p1 + "-" + d1;
    LastDashBeforeDigits(p1, d1);
    LastDashBeforeDigits(p2, d2);
    assert d1 == s[|p1| + 1..];
    assert d2 == (p2 + "-" + d2)[|p2| + 1..];
  }

  /** Cases at different positions get different ids, whatever the clock read for each. */
  lemma CaseIdInjective(t1: nat, t2: nat, i: nat, j: nat)
    requires i != j
    ensures CaseId(t1, i) != CaseId(t2, j)
  {
    if CaseId(t1, i) == CaseId(t2, j) {
      DigitSuffixDetermined("tc-" + Decimal.NatToString(t1), Decimal.NatToString(i),
                            "tc-" + Decimal.NatToString(t2), Decimal.NatToString(j));
      Decimal.RenderInjective(i, j);
    }
  }

  /**
   * Case `i` of a generation is stamped with the clock reading taken for it;
   * the ids of one generation are pairwise distinct and never empty, however
   * the clock advances between questions.
   */
  lemma GeneratedIdsDistinct(config: AnalysisConfig, stamps: nat -> nat)
    ensures var cases := GenerateTestCases(config, stamps);
      forall i :: 0 <= i < |cases| ==> cases[i].id == CaseId(stamps(i), i)
    ensures var cases := GenerateTestCases(config, stamps);
      forall i, j :: 0 <= i < |cases| && 0 <= j < |cases| && i != j ==> cases[i].id != cases[j].id
    ensures var cases := GenerateTestCases(config, stamps);
      forall i :: 0 <= i < |cases| ==> cases[i].id != ""
  {
    var cases := GenerateTestCases(config, stamps);
    forall i, j | 0 <= i < |cases| && 0 <= j < |cases| && i != j
      ensures cases[i].id != cases[j].id
    {
      CaseIdInjective(stamps(i), stamps(j), i, j);
    }
  }

  /** Generation reads nothing of the configuration but the manual questions. */
  lemma GenerationReadsOnlyManualQuestions(c1: AnalysisConfig, c2: AnalysisConfig, stamps: nat -> nat)
    requires c1.manualQuestions == c2.manualQuestions
    ensures GenerateTestCases(c1, stamps) == GenerateTestCases(c2, stamps)
  {
  }

  // ---------------------------------------------------------------------
  // Per-case execution
  // ---------------------------------------------------------------------

  /** Case `tc` at position `i` once both canned answers are attached. */
  function Complete(tc: TestCase, i: nat): (done: TestCase)
    ensures done.id == tc.id && done.question == tc.question
    ensures done.status == Completed
    ensures done.oldResponse == Some(MockOld[i % 5]) && done.newResponse == Some(MockNew[i % 5])
  {
    tc.(status := Completed, oldResponse := Some(MockOld[i % |MockOld|]), newResponse := Some(MockNew[i % |MockNew|]))
  }

  /** First update of loop step `i`: case `i` starts running, the rest are kept. */
  function MarkRunning(cases: seq<TestCase>, i: nat): (r: seq<TestCase>)
    ensures |r| == |cases|
    ensures forall j :: 0 <= j < |r| && j != i ==> r[j] == cases[j]
    ensures i < |cases| ==> r[i] == cases[i].(status := Running)
  {
    seq(|cases|, j requires 0 <= j < |cases| => if j == i then cases[j].(status := Running) else cases[j])
  }

  /** Second update of loop step `i`: case `i` completes with the canned answers for `i`. */
  function MarkCompleted(cases: seq<TestCase>, i: nat): (r: seq<TestCase>)
    ensures |r| == |cases|
    ensures forall j :: 0 <= j < |r| && j != i ==> r[j] == cases[j]
    ensures i < |cases| ==> r[i] == Complete(cases[i], i)
  {
    seq(|cases|, j requires 0 <= j < |cases| => if j == i then Complete(cases[j], j) else cases[j])
  }

  /** The live list after the first `k` steps of the execution loop. */
  function ExecuteUpTo(cases: seq<TestCase>, k: nat): (live: seq<TestCase>)
    requires k <= |cases|
    ensures |live| == |cases|
  {
    if k == 0 then cases else MarkCompleted(MarkRunning(ExecuteUpTo(cases, k - 1), k - 1), k - 1)
  }

  /** The live list while case `i` is running. */
  function RunningView(cases: seq<TestCase>, i: nat): (live: seq<TestCase>)
    requires i < |cases|
    ensures |live| == |cases|
  {
    MarkRunning(ExecuteUpTo(cases, i), i)
  }

  /** Every case completed with its canned answers: what a version stores. */
  function CompleteAll(cases: seq<TestCase>): (done: seq<TestCase>)
    ensures |done| == |cases|
    ensures forall i :: 0 <= i < |cases| ==> done[i] == Complete(cases[i], i)
  {
    seq(|cases|, i requires 0 <= i < |cases| => Complete(cases[i], i))
  }

  /** Completing a case overwrites whatever status it had. */
  lemma CompleteIgnoresStatus(tc: TestCase, st: Status, i: nat)
    ensures Complete(tc.(status := st), i) == Complete(tc, i)
  {
  }

  /** After `k` steps the first `k` cases are complete and the others untouched. */
  lemma {:induction false} ExecuteUpToShape(cases: seq<TestCase>, k: nat)
    requires k <= |cases|
    ensures |ExecuteUpTo(cases, k)| == |cases|
    ensures forall j :: 0 <= j < k ==> ExecuteUpTo(cases, k)[j] == Complete(cases[j], j)
    ensures forall j :: k <= j < |cases| ==> ExecuteUpTo(cases, k)[j] == cases[j]
  {
    if k > 0 {
      ExecuteUpToShape(cases, k - 1);
      var before := ExecuteUpTo(cases, k - 1);
      var running := MarkRunning(before, k - 1);
      var after := MarkCompleted(running, k - 1);
      assert ExecuteUpTo(cases, k) == after;
      forall j | 0 <= j < |cases|
        ensures j < k ==> after[j] == Complete(cases[j], j)
        ensures k <= j ==> after[j] == cases[j]
      {
        if j == k - 1 {
          assert before[j] == cases[j];
          CompleteIgnoresStatus(cases[j], Running, j);
        } else {
          assert after[j] == running[j] == before[j];
        }
      }
    }
  }

  /**
   * While case `i` runs, the cases before it are completed, it is running,
   * and the cases after it are exactly as generated.
   */
  lemma WhileRunning(cases: seq<TestCase>, i: nat)
    requires i < |cases|
    ensures |RunningView(cases, i)| == |cases|
    ensures RunningView(cases, i)[i] == cases[i].(status := Running)
    ensures forall j :: 0 <= j < i ==> RunningView(cases, i)[j] == Complete(cases[j], j)
    ensures forall j :: i < j < |cases| ==> RunningView(cases, i)[j] == cases[j]
  {
    ExecuteUpToShape(cases, i);
  }

  /** When the loop ends, the live list is exactly the list a version stores. */
  lemma ExecutionMatchesSnapshot(cases: seq<TestCase>)
    ensures ExecuteUpTo(cases, |cases|) == CompleteAll(cases)
  {
    ExecuteUpToShape(cases, |cases|);
  }

  /**
   * No generated case skips a state: case `i` is pending before its step,
   * running in the middle of it and completed after it, while every later
   * case is still pending.
   */
  lemma CaseLifecycle(config: AnalysisConfig, stamps: nat -> nat, i: nat)
    requires i < |GenerateTestCases(config, stamps)|
    ensures var cases := GenerateTestCases(config, stamps);
      && ExecuteUpTo(cases, i)[i].status == Pending
      && RunningView(cases, i)[i].status == Running
      && ExecuteUpTo(cases, i + 1)[i].status == Completed
      && forall j :: i < j < |cases| ==> RunningView(cases, i)[j].status == Pending
  {
    var cases := GenerateTestCases(config, stamps);
    ExecuteUpToShape(cases, i);
    ExecuteUpToShape(cases, i + 1);
    WhileRunning(cases, i);
  }

  // ---------------------------------------------------------------------
  // Flags, judge, cookedness, insights
  // ---------------------------------------------------------------------

  /** The id at position `k`, or `''` when the list is too short. */
  function IdAt(cases: seq<TestCase>, k: nat): (id: string)
    ensures k < |cases| ==> id == cases[k].id
    ensures |cases| <= k ==> id == ""
  {
    if k < |cases| then cases[k].id else ""
  }

  /** The two fixed flags, on the first and the third case. */
  function MockFlags(cases: seq<TestCase>): (flags: seq<DeterministicFlag>)
    ensures |flags| == 2
    ensures flags[0].flagType == DetailLoss && flags[0].severity == Low
    ensures flags[1].flagType == EdgeCaseLoss && flags[1].severity == Medium
    ensures flags[0].testCaseId == IdAt(cases, 0) && flags[1].testCaseId == IdAt(cases, 2)
  {
    [
      DeterministicFlag(DetailLoss, Low,
        "Some historical context was " + "omitted in the NEW response.", IdAt(cases, 0)),
      DeterministicFlag(EdgeCaseLoss, Medium,
        "The NEW response does not " + "address edge cases for " + "regulatory changes.", IdAt(cases, 2))
    ]
  }

  /**
   * On a generated list the first flag always names the first case, and the
   * second flag names no case exactly when one or two manual questions are
   * configured.
   */
  lemma FlagsOnGeneratedCases(config: AnalysisConfig, stamps: nat -> nat)
    ensures var flags := MockFlags(GenerateTestCases(config, stamps));
      && flags[0].testCaseId == CaseId(stamps(0), 0)
      && (flags[1].testCaseId == "" <==> 0 < |config.manualQuestions| < 3)
  {
    var cases := GenerateTestCases(config, stamps);
    if |cases| > 2 {
      GeneratedIdsDistinct(config, stamps);
      assert cases[2].id != "";
    }
  }

  const LiveJudge := JudgeResult(Improved,
    "The NEW model provides more " + "detailed and actionable " + "responses with better " + "coverage.", [], 85)

  const LiveCookedness := CookednessResult(25, Safe,
    ["Consistent formatting", "Accurate facts", "No hallucinations detected"])

  const LiveInsights := Insight(
    "The NEW model was trained " + "with more recent data and " + "improved prompting.",
    [
      "Consider adding explicit " + "edge case handling in the " + "prompt template.",
      "Add examples of expected " + "format in the system prompt.",
      "Test with adversarial inputs " + "to ensure robustness."
    ],
    Some("{\"prompt\": " + "\"{{question}}\", " + "\"system\": \"Provide " + "detailed, accurate " + "responses. Always consider " + "edge cases.\"}"))

  const SnapshotJudge := JudgeResult(Improved,
    "The NEW model provides more " + "detailed and actionable " + "responses.", [], 85)

  const SnapshotCookedness := CookednessResult(25, Safe, ["Consistent formatting", "Accurate facts"])

  const SnapshotInsights := Insight(
    "Improved training data and " + "prompting.",
    ["Add edge case handling", "Include format examples"],
    None)

  /**
   * The records a run displays are not the ones it stores: the summary,
   * the factor list and the insight all differ, although verdict, confidence,
   * cookedness score and severity agree.
   */
  lemma LiveDiffersFromSnapshot()
    ensures LiveJudge.summary != SnapshotJudge.summary
    ensures LiveJudge.verdict == SnapshotJudge.verdict && LiveJudge.confidence == SnapshotJudge.confidence
    ensures LiveCookedness.factors != SnapshotCookedness.factors
    ensures LiveCookedness.score == SnapshotCookedness.score && LiveCookedness.severity == SnapshotCookedness.severity
    ensures LiveInsights != SnapshotInsights
  {
    assert |LiveCookedness.factors| == 3 && |SnapshotCookedness.factors| == 2;
    assert LiveInsights.revisedPrompt.Some? && SnapshotInsights.revisedPrompt.None?;
  }

  // ---------------------------------------------------------------------
  // The run, phase by phase
  // ---------------------------------------------------------------------

  /** Run start: analyzing, results cleared; the score is deliberately kept. */
  function StartRun(s: State): (r: State)
    ensures r.isAnalyzing
    ensures r.deterministicFlags == [] && r.judgeResult.None? && r.cookedness.None? && r.insights.None?
    ensures r.deterministicScore == s.deterministicScore
    ensures r.config == s.config && r.testCases == s.testCases && r.versions == s.versions
  {
    s.(isAnalyzing := true, deterministicFlags := [], judgeResult := None, cookedness := None, insights := None)
  }

  /** Start the run and show the freshly generated, all-pending cases. */
  function Begin(s: State, clock: RunClock): (b: State)
    ensures b.testCases == GenerateTestCases(s.config, clock.generatedAt)
    ensures b.isAnalyzing
    ensures b.deterministicFlags == [] && b.judgeResult.None? && b.cookedness.None? && b.insights.None?
    ensures b.deterministicScore == s.deterministicScore
    ensures b.config == s.config && b.versions == s.versions
  {
    StartRun(s).(testCases := GenerateTestCases(s.config, clock.generatedAt))
  }

  /** The state once every case has been executed, before any analysis result. */
  function Executed(s: State, clock: RunClock): (e: State)
    ensures e.testCases == CompleteAll(GenerateTestCases(s.config, clock.generatedAt))
    ensures e.isAnalyzing
    ensures e.deterministicScore == s.deterministicScore
    ensures e.deterministicFlags == [] && e.judgeResult.None? && e.cookedness.None? && e.insights.None?
    ensures e.versions == s.versions && e.config == s.config
  {
    var cases := GenerateTestCases(s.config, clock.generatedAt);
    ExecutionMatchesSnapshot(cases);
    Begin(s, clock).(testCases := ExecuteUpTo(cases, |cases|))
  }

  /** Flags and score, then judge, cookedness and insights, one after the other. */
  function PublishResults(s: State, cases: seq<TestCase>): (r: State)
    ensures r.deterministicFlags == MockFlags(cases) && r.deterministicScore == MockScore
    ensures r.judgeResult == Some(LiveJudge) && r.cookedness == Some(LiveCookedness) && r.insights == Some(LiveInsights)
    ensures r.config == s.config && r.testCases == s.testCases
    ensures r.versions == s.versions && r.isAnalyzing == s.isAnalyzing
  {
    s.(deterministicFlags := MockFlags(cases), deterministicScore := MockScore)
     .(judgeResult := Some(LiveJudge))
     .(cookedness := Some(LiveCookedness))
     .(insights := Some(LiveInsights))
  }

  /**
   * The snapshot a run commits as version `number`. It is built from the
   * generated cases, not read back from the live state, and carries its own
   * judge, cookedness and insight records.
   */
  function Snapshot(config: AnalysisConfig, cases: seq<TestCase>, number: int, clock: RunClock): (v: AnalysisVersion)
    ensures v.version == number && v.config == config && v.timestamp == clock.timestamp
    ensures v.testCases == CompleteAll(cases)
    ensures v.deterministicFlags == MockFlags(cases) && v.deterministicScore == MockScore
    ensures v.judgeResult == SnapshotJudge && v.cookedness == SnapshotCookedness && v.insights == SnapshotInsights
    ensures v.id == "v-" + Decimal.NatToString(clock.committedAt) && v.caseId == "case-1"
  {
    AnalysisVersion(
      "v-" + Decimal.NatToString(clock.committedAt),
      "case-1",
      number,
      clock.timestamp,
      config,
      CompleteAll(cases),
      MockFlags(cases),
      MockScore,
      SnapshotJudge,
      SnapshotCookedness,
      SnapshotInsights)
  }

  /** Snapshots committed at different clock readings have different ids. */
  lemma SnapshotIdsDistinct(config: AnalysisConfig, cases: seq<TestCase>, number: int, k1: RunClock, k2: RunClock)
    requires k1.committedAt != k2.committedAt
    ensures Snapshot(config, cases, number, k1).id != Snapshot(config, cases, number, k2).id
  {
    var d1 := Decimal.NatToString(k1.committedAt);
    var d2 := Decimal.NatToString(k2.committedAt);
    assert ("v-" + d1)[2..] == d1;
    assert ("v-" + d2)[2..] == d2;
    Decimal.RenderInjective(k1.committedAt, k2.committedAt);
  }

  /** Prepend the snapshot and leave analyzing mode. */
  function Commit(s: State, v: AnalysisVersion): (r: State)
    ensures r.versions == [v] + s.versions
    ensures !r.isAnalyzing
    ensures r.config == s.config && r.testCases == s.testCases
    ensures r.deterministicFlags == s.deterministicFlags && r.deterministicScore == s.deterministicScore
    ensures r.judgeResult == s.judgeResult && r.cookedness == s.cookedness && r.insights == s.insights
  {
    s.(versions := [v] + s.versions, isAnalyzing := false)
  }

  /** One whole run of the analysis, from the click to the committed version. */
  function RunAnalysis(s: State, clock: RunClock): (r: State)
    ensures |r.versions| == |s.versions| + 1 && r.versions[1..] == s.versions
    ensures r.versions[0].version == |s.versions| + 1
    ensures r.config == s.config && r.versions[0].config == s.config
    ensures !r.isAnalyzing
    ensures r.testCases == r.versions[0].testCases
    ensures forall i :: 0 <= i < |r.testCases| ==> r.testCases[i].status == Completed
  {
    var cases := GenerateTestCases(s.config, clock.generatedAt);
    var v := Snapshot(s.config, cases, |s.versions| + 1, clock);
    var r := Commit(PublishResults(Executed(s, clock), cases), v);
    assert r.versions[0] == v && r.versions[1..] == s.versions;
    r
  }

  /**
   * What a run leaves on screen against what it stores: one case per
   * generated question; the same cases, flags and score 35; cookedness 25
   * and Safe in both; the same verdict but a different judge summary, a
   * different factor list and a different insight.
   */
  lemma RunShowsWhatItStores(s: State, clock: RunClock)
    ensures var r := RunAnalysis(s, clock);
      && |r.testCases| == (if |s.config.manualQuestions| > 0 then |s.config.manualQuestions| else 5)
      && r.deterministicFlags == r.versions[0].deterministicFlags
      && r.deterministicScore == r.versions[0].deterministicScore == 35
      && r.cookedness.Some? && r.cookedness.value.score == r.versions[0].cookedness.score == 25
      && r.cookedness.value.severity == r.versions[0].cookedness.severity == Safe
      && r.judgeResult.Some? && r.judgeResult.value.verdict == r.versions[0].judgeResult.verdict
      && r.judgeResult.value.summary != r.versions[0].judgeResult.summary
      && r.cookedness.value.factors != r.versions[0].cookedness.factors
      && r.insights.Some? && r.insights.value != r.versions[0].insights
  {
    var cases := GenerateTestCases(s.config, clock.generatedAt);
    LiveDiffersFromSnapshot();
    var v := Snapshot(s.config, cases, |s.versions| + 1, clock);
    var analyzed := PublishResults(Executed(s, clock), cases);
    assert RunAnalysis(s, clock) == Commit(analyzed, v);
  }

  /**
   * A run shows and stores the generated cases, all completed, and the two
   * fixed flags on them: the flags of a run are those of `MockFlags`.
   */
  lemma RunPublishesFlags(s: State, clock: RunClock)
    ensures var cases := GenerateTestCases(s.config, clock.generatedAt);
      var r := RunAnalysis(s, clock);
      && r.testCases == CompleteAll(cases)
      && r.deterministicFlags == MockFlags(cases)
      && r.versions[0].deterministicFlags == MockFlags(cases)
  {
  }

  // ---------------------------------------------------------------------
  // Version history
  // ---------------------------------------------------------------------

  /** Entry `i` (most recent first) of a history of `n` versions is version `n - i`. */
  predicate VersionsNumbered(vs: seq<AnalysisVersion>) {
    forall i :: 0 <= i < |vs| ==> vs[i].version == |vs| - i
  }

  /** A run keeps the history numbered. */
  lemma RunKeepsNumbering(s: State, clock: RunClock)
    requires VersionsNumbered(s.versions)
    ensures VersionsNumbered(RunAnalysis(s, clock).versions)
  {
    var vs := RunAnalysis(s, clock).versions;
    forall i | 0 <= i < |vs|
      ensures vs[i].version == |vs| - i
    {
      if i > 0 {
        assert vs[i] == vs[1..][i - 1] == s.versions[i - 1];
      }
    }
  }

  /** Runs one after the other, one clock reading triple per run. */
  function RunAll(s: State, clocks: seq<RunClock>): State
    decreases |clocks|
  {
    if |clocks| == 0 then s else RunAll(RunAnalysis(s, clocks[0]), clocks[1..])
  }

  /**
   * `n` runs prepend exactly `n` versions, leave the older ones untouched
   * and keep the history numbered.
   */
  lemma {:induction false} RunAllHistory(s: State, clocks: seq<RunClock>)
    requires VersionsNumbered(s.versions)
    ensures var r := RunAll(s, clocks);
      && |r.versions| == |s.versions| + |clocks|
      && r.versions[|clocks|..] == s.versions
      && VersionsNumbered(r.versions)
    decreases |clocks|
  {
    if |clocks| > 0 {
      var s1 := RunAnalysis(s, clocks[0]);
      RunKeepsNumbering(s, clocks[0]);
      RunAllHistory(s1, clocks[1..]);
      var r := RunAll(s1, clocks[1..]);
      assert RunAll(s, clocks) == r;
      assert r.versions[|clocks| - 1..] == s1.versions;
      assert r.versions[|clocks|..] == s1.versions[1..];
    }
  }

  /** From a fresh dashboard, `n` runs leave versions `n, n-1, ..., 1`. */
  lemma FreshHistoryCountsDown(clocks: seq<RunClock>)
    ensures var vs := RunAll(InitialState, clocks).versions;
      && |vs| == |clocks|
      && forall i :: 0 <= i < |vs| ==> vs[i].version == |clocks| - i
  {
    RunAllHistory(InitialState, clocks);
  }

  /** A numbered history has unique, strictly decreasing version numbers. */
  lemma NumberedIsStrictlyDecreasing(vs: seq<AnalysisVersion>)
    requires VersionsNumbered(vs)
    ensures forall i, j :: 0 <= i < j < |vs| ==> vs[i].version > vs[j].version
    ensures forall i :: 0 <= i < |vs| ==> 1 <= vs[i].version <= |vs|
  {
  }

  // ---------------------------------------------------------------------
  // Recall
  // ---------------------------------------------------------------------

  /** `s` shows every stored field of `v`. */
  predicate Shows(s: State, v: AnalysisVersion) {
    && s.config == v.config
    && s.testCases == v.testCases
    && s.deterministicFlags == v.deterministicFlags
    && s.deterministicScore == v.deterministicScore
    && s.judgeResult == Some(v.judgeResult)
    && s.cookedness == Some(v.cookedness)
    && s.insights == Some(v.insights)
  }

  /** Restore a stored version; history and the analyzing flag are not touched. */
  function LoadVersion(s: State, v: AnalysisVersion): (r: State)
    ensures Shows(r, v)
    ensures r.versions == s.versions && r.isAnalyzing == s.isAnalyzing
  {
    s.(config := v.config,
       testCases := v.testCases,
       deterministicFlags := v.deterministicFlags,
       deterministicScore := v.deterministicScore,
       judgeResult := Some(v.judgeResult),
       cookedness := Some(v.cookedness),
       insights := Some(v.insights))
  }

  /** The state a load produces depends only on the version and the untouched fields. */
  lemma LoadDeterminedByVersion(s: State, t: State, v: AnalysisVersion)
    requires s.versions == t.versions && s.isAnalyzing == t.isAnalyzing
    ensures LoadVersion(s, v) == LoadVersion(t, v)
  {
  }

  /** A second load overrides the first completely; loading twice is loading once. */
  lemma LoadLastWins(s: State, v: AnalysisVersion, w: AnalysisVersion)
    ensures LoadVersion(LoadVersion(s, v), w) == LoadVersion(s, w)
    ensures LoadVersion(LoadVersion(s, v), v) == LoadVersion(s, v)
  {
  }

  /** Loading is the identity on a state that already shows the version. */
  lemma LoadShownIsIdentity(s: State, v: AnalysisVersion)
    requires Shows(s, v)
    ensures LoadVersion(s, v) == s
  {
  }

  /**
   * Recalling the version a run has just committed restores the same cases,
   * flags, score and configuration, but not the judge summary, cookedness
   * factors or insights the run displayed.
   */
  lemma ReloadLatestAfterRun(s: State, clock: RunClock)
    ensures var r := RunAnalysis(s, clock);
      var l := LoadVersion(r, r.versions[0]);
      && l.config == r.config && l.testCases == r.testCases
      && l.deterministicFlags == r.deterministicFlags && l.deterministicScore == r.deterministicScore
      && l.versions == r.versions
      && l.judgeResult != r.judgeResult && l.cookedness != r.cookedness && l.insights != r.insights
  {
    RunShowsWhatItStores(s, clock);
  }
}

=== FILE: config_panel.dfy ===
/**
 * The configuration panel's editing logic: a single-field record update,
 * the three manual-question list edits, the number-of-cases input fallback
 * and the guard that enables the Run button.
 */
module ConfigPanel {
  import opened Wrappers
  import opened Types

  /** The keys of `AnalysisConfig`. */
  datatype Field =
    | OldApiEndpoint
    | NewApiEndpoint
    | PromptTemplate
    | ResponseExtractionPath
    | Goal
    | ManualQuestions
    | NumCases

  /** A field's value, whatever its type. */
  datatype FieldValue = Text(text: string) | Questions(questions: seq<string>) | Count(count: int)

  /**
   * One `updateConfig(key, value)` call. Each constructor pairs a key with a
   * value of that key's type, as every call site in the panel does.
   */
  datatype Edit =
    | SetOldApiEndpoint(text: string)
    | SetNewApiEndpoint(text: string)
    | SetPromptTemplate(text: string)
    | SetResponseExtractionPath(text: string)
    | SetGoal(text: string)
    | SetManualQuestions(questions: seq<string>)
    | SetNumCases(count: int)
  {
    /** The key this edit writes. */
    function Key(): Field {
      match this
      case SetOldApiEndpoint(_) => OldApiEndpoint
      case SetNewApiEndpoint(_) => NewApiEndpoint
      case SetPromptTemplate(_) => PromptTemplate
      case SetResponseExtractionPath(_) => ResponseExtractionPath
      case SetGoal(_) => Goal
      case SetManualQuestions(_) => ManualQuestions
      case SetNumCases(_) => NumCases
    }

    /** The value this edit writes. */
    function Value(): FieldValue {
      match this
      case SetManualQuestions(qs) => Questions(qs)
      case SetNumCases(n) => Count(n)
      case _ => Text(this.text)
    }
  }

  /** Read field `f` of `c`. */
  function Get(c: AnalysisConfig, f: Field): FieldValue {
    match f
    case OldApiEndpoint => Text(c.oldApiEndpoint)
    case NewApiEndpoint => Text(c.newApiEndpoint)
    case PromptTemplate => Text(c.promptTemplate)
    case ResponseExtractionPath => Text(c.responseExtractionPath)
    case Goal => Text(c.goal)
    case ManualQuestions => Questions(c.manualQuestions)
    case NumCases => Count(c.numCases)
  }

  /** A copy of `c` with one field replaced. */
  function UpdateConfig(c: AnalysisConfig, e: Edit): (r: AnalysisConfig)
    ensures Get(r, e.Key()) == e.Value()
    ensures forall f :: f != e.Key() ==> Get(r, f) == Get(c, f)
  {
    match e
    case SetOldApiEndpoint(v) => c.(oldApiEndpoint := v)
    case SetNewApiEndpoint(v) => c.(newApiEndpoint := v)
    case SetPromptTemplate(v) => c.(promptTemplate := v)
    case SetResponseExtractionPath(v) => c.(responseExtractionPath := v)
    case SetGoal(v) => c.(goal := v)
    case SetManualQuestions(qs) => c.(manualQuestions := qs)
    case SetNumCases(n) => c.(numCases := n)
  }

  /** A configuration is determined by its fields. */
  lemma FieldsDetermineConfig(c: AnalysisConfig, d: AnalysisConfig)
    requires forall f :: Get(c, f) == Get(d, f)
    ensures c == d
  {
    assert Get(c, OldApiEndpoint) == Get(d, OldApiEndpoint);
    assert Get(c, NewApiEndpoint) == Get(d, NewApiEndpoint);
    assert Get(c, PromptTemplate) == Get(d, PromptTemplate);
    assert Get(c, ResponseExtractionPath) == Get(d, ResponseExtractionPath);
    assert Get(c, Goal) == Get(d, Goal);
    assert Get(c, ManualQuestions) == Get(d, ManualQuestions);
    assert Get(c, NumCases) == Get(d, NumCases);
  }

  /** Writing back the value a field already holds changes nothing. */
  lemma UpdateWithCurrentValue(c: AnalysisConfig, e: Edit)
    requires Get(c, e.Key()) == e.Value()
    ensures UpdateConfig(c, e) == c
  {
    FieldsDetermineConfig(UpdateConfig(c, e), c);
  }

  /** Of two edits to the same field only the second one counts. */
  lemma SecondEditWins(c: AnalysisConfig, e1: Edit, e2: Edit)
    requires e1.Key() == e2.Key()
    ensures UpdateConfig(UpdateConfig(c, e1), e2) == UpdateConfig(c, e2)
  {
    FieldsDetermineConfig(UpdateConfig(UpdateConfig(c, e1), e2), UpdateConfig(c, e2));
  }

  /** Edits to different fields commute. */
  lemma DistinctEditsCommute(c: AnalysisConfig, e1: Edit, e2: Edit)
    requires e1.Key() != e2.Key()
    ensures UpdateConfig(UpdateConfig(c, e1), e2) == UpdateConfig(UpdateConfig(c, e2), e1)
  {
    FieldsDetermineConfig(UpdateConfig(UpdateConfig(c, e1), e2), UpdateConfig(UpdateConfig(c, e2), e1));
  }

  // ---------------------------------------------------------------------
  // Manual questions
  // ---------------------------------------------------------------------

  /** The list with one blank question added at the end. */
  function AppendBlank(qs: seq<string>): (r: seq<string>)
    ensures |r| == |qs| + 1
    ensures r[..|qs|] == qs && r[|qs|] == ""
  {
    qs + [""]
  }

  /** The list with position `i` replaced by `v`. */
  function ReplaceAt(qs: seq<string>, i: nat, v: string): (r: seq<string>)
    requires i < |qs|
    ensures |r| == |qs|
    ensures r[i] == v
    ensures forall j :: 0 <= j < |qs| && j != i ==> r[j] == qs[j]
  {
    qs[i := v]
  }

  /**
   * The list filtered by position: every element whose index differs from
   * `index` is kept, in order. Positions are visited from the end so that
   * the indices of the elements still to visit stay put.
   */
  function RemoveAt(qs: seq<string>, index: int): seq<string>
    decreases |qs|
  {
    if |qs| == 0 then []
    else RemoveAt(qs[..|qs| - 1], index) + (if index == |qs| - 1 then [] else [qs[|qs| - 1]])
  }

  /**
   * Removing a valid position drops exactly that element; removing any
   * other index leaves the list as it was.
   */
  lemma {:induction false} RemoveAtSlices(qs: seq<string>, index: int)
    ensures 0 <= index < |qs| ==> RemoveAt(qs, index) == qs[..index] + qs[index + 1..]
    ensures !(0 <= index < |qs|) ==> RemoveAt(qs, index) == qs
    decreases |qs|
  {
    if |qs| > 0 {
      var n := |qs|;
      var init := qs[..n - 1];
      RemoveAtSlices(init, index);
      if index == n - 1 {
        assert RemoveAt(qs, index) == init;
        assert qs[index + 1..] == [];
      } else if 0 <= index < n - 1 {
        assert RemoveAt(qs, index) == init[..index] + init[index + 1..] + [qs[n - 1]];
        assert init[..index] == qs[..index];
        assert init[index + 1..] + [qs[n - 1]] == qs[index + 1..];
      } else {
        assert RemoveAt(qs, index) == init + [qs[n - 1]];
        assert init + [qs[n - 1]] == qs;
      }
    }
  }

  /** Element-wise reading of a removal. */
  lemma RemoveAtElements(qs: seq<string>, index: int)
    ensures 0 <= index < |qs| ==> |RemoveAt(qs, index)| == |qs| - 1
    ensures 0 <= index < |qs| ==> forall j :: 0 <= j < index ==> RemoveAt(qs, index)[j] == qs[j]
    ensures 0 <= index < |qs| ==> forall j :: index <= j < |qs| - 1 ==> RemoveAt(qs, index)[j] == qs[j + 1]
    ensures !(0 <= index < |qs|) ==> RemoveAt(qs, index) == qs
  {
    RemoveAtSlices(qs, index);
  }

  /** Adding a blank question and removing the last position restores the list. */
  lemma AppendThenRemoveLast(qs: seq<string>)
    ensures RemoveAt(AppendBlank(qs), |qs|) == qs
  {
    RemoveAtSlices(AppendBlank(qs), |qs|);
  }

  /** Removing a position forgets whatever was written there. */
  lemma RemoveForgetsReplace(qs: seq<string>, i: nat, v: string)
    requires i < |qs|
    ensures RemoveAt(ReplaceAt(qs, i, v), i) == RemoveAt(qs, i)
  {
    RemoveAtSlices(qs, i);
    RemoveAtSlices(ReplaceAt(qs, i, v), i);
    assert ReplaceAt(qs, i, v)[..i] == qs[..i];
    assert ReplaceAt(qs, i, v)[i + 1..] == qs[i + 1..];
  }

  /** The Add button. */
  function AddManualQuestion(c: AnalysisConfig): (r: AnalysisConfig)
    ensures r.manualQuestions == AppendBlank(c.manualQuestions)
    ensures forall f :: f != ManualQuestions ==> Get(r, f) == Get(c, f)
  {
    UpdateConfig(c, SetManualQuestions(AppendBlank(c.manualQuestions)))
  }

  /** Typing into question `i`; the panel renders an input only for valid positions. */
  function UpdateManualQuestion(c: AnalysisConfig, i: nat, v: string): (r: AnalysisConfig)
    requires i < |c.manualQuestions|
    ensures r.manualQuestions == ReplaceAt(c.manualQuestions, i, v)
    ensures forall f :: f != ManualQuestions ==> Get(r, f) == Get(c, f)
  {
    UpdateConfig(c, SetManualQuestions(ReplaceAt(c.manualQuestions, i, v)))
  }

  /** The delete button of question `index`. */
  function RemoveManualQuestion(c: AnalysisConfig, index: int): (r: AnalysisConfig)
    ensures 0 <= index < |c.manualQuestions| ==>
      r.manualQuestions == c.manualQuestions[..index] + c.manualQuestions[index + 1..]
    ensures !(0 <= index < |c.manualQuestions|) ==> r == c
    ensures forall f :: f != ManualQuestions ==> Get(r, f) == Get(c, f)
  {
    RemoveAtSlices(c.manualQuestions, index);
    UpdateConfig(c, SetManualQuestions(RemoveAt(c.manualQuestions, index)))
  }

  // ---------------------------------------------------------------------
  // Number of generated cases
  // ---------------------------------------------------------------------

  /**
   * The stored value for a number-input change, given what integer parsing
   * made of the text (`None` when it failed). Failure and zero both fall
   * back to 10; any other integer is stored as is, outside 1..50 included.
   */
  function NumCasesFromInput(parsed: Option<int>): (n: int)
    ensures n != 0
    ensures parsed.None? ==> n == 10
    ensures parsed == Some(0) ==> n == 10
    ensures parsed.Some? && parsed.value != 0 ==> n == parsed.value
  {
    match parsed
    case None => 10
    case Some(v) => if v == 0 then 10 else v
  }

  /** The number input's change handler. */
  function ChangeNumCases(c: AnalysisConfig, parsed: Option<int>): (r: AnalysisConfig)
    ensures r.numCases == NumCasesFromInput(parsed)
    ensures forall f :: f != NumCases ==> Get(r, f) == Get(c, f)
  {
    UpdateConfig(c, SetNumCases(NumCasesFromInput(parsed)))
  }

  // ---------------------------------------------------------------------
  // Run button
  // ---------------------------------------------------------------------

  /** The fields the Run button looks at. */
  predicate GuardField(f: Field) {
    f == OldApiEndpoint || f == NewApiEndpoint || f == Goal
  }

  /**
   * The Run button is enabled: not analyzing, both endpoints and the goal
   * non-empty (an empty string is falsy).
   */
  function RunEnabled(c: AnalysisConfig, isAnalyzing: bool): (enabled: bool)
    ensures enabled <==> !isAnalyzing && forall f :: GuardField(f) ==> Get(c, f) != Text("")
  {
    assert GuardField(OldApiEndpoint) && GuardField(NewApiEndpoint) && GuardField(Goal);
    !isAnalyzing && c.oldApiEndpoint != "" && c.newApiEndpoint != "" && c.goal != ""
  }

  /** Editing template, path, number of cases or questions never changes whether Run is enabled. */
  lemma RunEnabledIgnoresOtherFields(c: AnalysisConfig, e: Edit, isAnalyzing: bool)
    requires !GuardField(e.Key())
    ensures RunEnabled(UpdateConfig(c, e), isAnalyzing) == RunEnabled(c, isAnalyzing)
  {
    assert Get(UpdateConfig(c, e), OldApiEndpoint) == Get(c, OldApiEndpoint);
    assert Get(UpdateConfig(c, e), NewApiEndpoint) == Get(c, NewApiEndpoint);
    assert Get(UpdateConfig(c, e), Goal) == Get(c, Goal);
  }

  /** Clearing any one of the three guarded fields disables Run. */
  lemma ClearingGuardDisables(c: AnalysisConfig, e: Edit, isAnalyzing: bool)
    requires GuardField(e.Key()) && e.Value() == Text("")
    ensures !RunEnabled(UpdateConfig(c, e), isAnalyzing)
  {
  }
}

=== FILE: dashboard.dfy ===
/**
 * The page that wires the pieces together: configuration edits go to the
 * hook's configuration, the Run button starts a run when it is enabled, and
 * a history entry loads its version. A session is a sequence of such user
 * actions; the history it builds is append-only and well formed.
 */
module Dashboard {
  import opened Types
  import Analysis
  import ConfigPanel
  import VersionHistory

  /** What the user can do on the page. */
  datatype Action =
    | EditConfig(edit: ConfigPanel.Edit)
    | PressRun(clock: Analysis.RunClock)
    | PickEntry(index: nat)

  /**
   * The effect of one action. An edit changes only the configuration; the
   * Run button adds a version exactly when it is enabled and otherwise does
   * nothing; picking an entry shows its version, and a missing entry does
   * nothing.
   */
  function Apply(s: Analysis.State, a: Action): (r: Analysis.State)
    ensures a.EditConfig? ==>
      && ConfigPanel.Get(r.config, a.edit.Key()) == a.edit.Value()
      && r.versions == s.versions && r.testCases == s.testCases && r.isAnalyzing == s.isAnalyzing
    ensures a.EditConfig? ==>
      && r.config == ConfigPanel.UpdateConfig(s.config, a.edit)
      && (forall f :: f != a.edit.Key() ==> ConfigPanel.Get(r.config, f) == ConfigPanel.Get(s.config, f))
      && r.deterministicFlags == s.deterministicFlags && r.deterministicScore == s.deterministicScore
      && r.judgeResult == s.judgeResult && r.cookedness == s.cookedness && r.insights == s.insights
    ensures a.PressRun? && ConfigPanel.RunEnabled(s.config, s.isAnalyzing) ==> r == Analysis.RunAnalysis(s, a.clock)
    ensures a.PressRun? ==> (|r.versions| == |s.versions| + 1 <==> ConfigPanel.RunEnabled(s.config, s.isAnalyzing))
    ensures a.PressRun? && !ConfigPanel.RunEnabled(s.config, s.isAnalyzing) ==> r == s
    ensures a.PickEntry? ==> r.versions == s.versions
    ensures a.PickEntry? && a.index < |s.versions| ==> Analysis.Shows(r, s.versions[a.index])
    ensures a.PickEntry? && a.index >= |s.versions| ==> r == s
  {
    match a
    case EditConfig(e) => s.(config := ConfigPanel.UpdateConfig(s.config, e))
    case PressRun(clock) =>
      if ConfigPanel.RunEnabled(s.config, s.isAnalyzing) then Analysis.RunAnalysis(s, clock) else s
    case PickEntry(k) =>
      if k < |s.versions| then VersionHistory.SelectEntry(s, VersionHistory.Render(s.versions).entries[k]).0 else s
  }

  /** The state after a whole session of actions. */
  function ApplyAll(s: Analysis.State, actions: seq<Action>): Analysis.State
    decreases |actions|
  {
    if |actions| == 0 then s else ApplyAll(Apply(s, actions[0]), actions[1..])
  }

  /**
   * A well-formed history: numbered n down to 1, every stored run started
   * from a configuration the Run button accepted, every stored case completed.
   */
  predicate HistoryWellFormed(vs: seq<AnalysisVersion>) {
    && Analysis.VersionsNumbered(vs)
    && (forall k :: 0 <= k < |vs| ==> ConfigPanel.RunEnabled(vs[k].config, false))
    && (forall k, i :: 0 <= k < |vs| && 0 <= i < |vs[k].testCases| ==> vs[k].testCases[i].status == Completed)
  }

  /** `newer` is `older` with zero or more versions put in front. */
  predicate Extends(newer: seq<AnalysisVersion>, older: seq<AnalysisVersion>) {
    |older| <= |newer| && newer[|newer| - |older|..] == older
  }

  lemma ExtendsTransitive(a: seq<AnalysisVersion>, b: seq<AnalysisVersion>, c: seq<AnalysisVersion>)
    requires Extends(a, b) && Extends(b, c)
    ensures Extends(a, c)
  {
    assert a[|a| - |c|..] == a[|a| - |b|..][|b| - |c|..];
  }

  /** One action keeps the history well formed, only ever prepends, and ends outside analyzing mode. */
  lemma ApplyKeepsHistory(s: Analysis.State, a: Action)
    requires HistoryWellFormed(s.versions) && !s.isAnalyzing
    ensures var r := Apply(s, a);
      && HistoryWellFormed(r.versions)
      && !r.isAnalyzing
      && |r.versions| <= |s.versions| + 1
      && Extends(r.versions, s.versions)
  {
    var r := Apply(s, a);
    if a.PressRun? && ConfigPanel.RunEnabled(s.config, s.isAnalyzing) {
      Analysis.RunKeepsNumbering(s, a.clock);
      assert r.versions[1..] == s.versions;
      forall k, i | 0 <= k < |r.versions| && 0 <= i < |r.versions[k].testCases|
        ensures r.versions[k].testCases[i].status == Completed
      {
        if k > 0 {
          assert r.versions[k] == s.versions[k - 1];
        }
      }
      forall k | 0 <= k < |r.versions|
        ensures ConfigPanel.RunEnabled(r.versions[k].config, false)
      {
        if k > 0 {
          assert r.versions[k] == s.versions[k - 1];
        }
      }
    } else {
      assert r.versions == s.versions;
    }
  }

  /**
   * Over a whole session the history only grows at the front, by at most
   * one version per action, and stays well formed.
   */
  lemma {:induction false} SessionHistoryAppendOnly(s: Analysis.State, actions: seq<Action>)
    requires HistoryWellFormed(s.versions) && !s.isAnalyzing
    ensures var r := ApplyAll(s, actions);
      && HistoryWellFormed(r.versions)
      && !r.isAnalyzing
      && |r.versions| <= |s.versions| + |actions|
      && Extends(r.versions, s.versions)
    decreases |actions|
  {
    if |actions| == 0 {
      assert ApplyAll(s, actions) == s;
      assert s.versions[0..] == s.versions;
    } else {
      var s1 := Apply(s, actions[0]);
      ApplyKeepsHistory(s, actions[0]);
      SessionHistoryAppendOnly(s1, actions[1..]);
      var r := ApplyAll(s1, actions[1..]);
      assert ApplyAll(s, actions) == r;
      ExtendsTransitive(r.versions, s1.versions, s.versions);
    }
  }

  /** The page opens with a configuration the Run button refuses. */
  lemma FreshPageCannotRun(clock: Analysis.RunClock)
    ensures !ConfigPanel.RunEnabled(Analysis.DefaultConfig, false)
    ensures Apply(Analysis.InitialState, PressRun(clock)) == Analysis.InitialState
  {
  }

  /** Every session from a fresh page ends with a well-formed history. */
  lemma FreshSessionWellFormed(actions: seq<Action>)
    ensures HistoryWellFormed(ApplyAll(Analysis.InitialState, actions).versions)
    ensures |ApplyAll(Analysis.InitialState, actions).versions| <= |actions|
  {
    SessionHistoryAppendOnly(Analysis.InitialState, actions);
  }
}

=== FILE: decimal.dfy ===
/**
 * Decimal rendering of natural numbers, as a JavaScript template literal
 * `${n}` writes a non-negative integer index or millisecond clock reading,
 * together with the parse that undoes it. The round trip is what makes
 * rendered numbers usable as distinguishing parts of identifiers.
 */
module Decimal {

  predicate IsDigit(c: char) {
    '0' <= c <= '9'
  }

  predicate AllDigits(s: string) {
    forall k :: 0 <= k < |s| ==> IsDigit(s[k])
  }

  /** The character of the decimal digit `d`. */
  function DigitChar(d: nat): (c: char)
    requires d < 10
    ensures IsDigit(c)
  {
    ('0' as int + d) as char
  }

  /** The value of a digit character; the inverse of `DigitChar`. */
  function DigitValue(c: char): (d: nat)
    requires IsDigit(c)
    ensures d < 10
    ensures DigitChar(d) == c
  {
    c as int - '0' as int
  }

  /** The shortest decimal spelling of `n`, most significant digit first. */
  function NatToString(n: nat): (s: string)
    ensures |s| >= 1
    ensures AllDigits(s)
    ensures |s| == 1 <==> n < 10
    ensures s[0] == '0' <==> n == 0
    decreases n
  {
    if n < 10 then [DigitChar(n)] else NatToString(n / 10) + [DigitChar(n % 10)]
  }

  /** The number a string of decimal digits denotes (the empty string denotes 0). */
  function ParseNat(s: string): nat
    requires AllDigits(s)
  {
    if |s| == 0 then 0 else ParseNat(s[..|s| - 1]) * 10 + DigitValue(s[|s| - 1])
  }

  /** Parsing a rendered number gives the number back. */
  lemma {:induction false} ParseRendered(n: nat)
    ensures ParseNat(NatToString(n)) == n
    decreases n
  {
    var s := NatToString(n);
    if n < 10 {
      assert s[..|s| - 1] == [];
    } else {
      var q := NatToString(n / 10);
      assert s == q + [DigitChar(n % 10)];
      assert s[..|s| - 1] == q;
      ParseRendered(n / 10);
    }
  }

  /** Distinct numbers have distinct spellings. */
  lemma RenderInjective(a: nat, b: nat)
    ensures NatToString(a) == NatToString(b) ==> a == b
  {
    ParseRendered(a);
    ParseRendered(b);
  }
}

=== FILE: types.dfy ===
/**
 * The records the dashboard passes around: test cases, deterministic flags,
 * judge, cookedness and insight results, the analysis configuration and the
 * immutable version snapshot. String unions become closed enumerations and
 * optional fields become `Option`.
 */
module Types {
  import opened Wrappers

  /** Lifecycle of one test case. `Error` is declared but nothing produces it. */
  datatype Status = Pending | Running | Completed | Error

  datatype TestCase = TestCase(
    id: string,
    question: string,
    oldResponse: Option<string>,
    newResponse: Option<string>,
    status: Status)

  datatype FlagType =
    | DetailLoss
    | AssumptionLoss
    | EdgeCaseLoss
    | SafetyCompromise
    | FormatChange
    | CoverageGap

  datatype Severity = Low | Medium | High | Critical

  datatype DeterministicFlag = DeterministicFlag(
    flagType: FlagType,
    severity: Severity,
    description: string,
    testCaseId: string)

  datatype Verdict = Improved | Regression | Neutral

  datatype JudgeResult = JudgeResult(
    verdict: Verdict,
    summary: string,
    riskFlags: seq<string>,
    confidence: int)

  /** The cookedness bucket; `DeeplyCooked` is the source's 'Deeply Cooked'. */
  datatype CookednessSeverity = Safe | Risky | DeeplyCooked

  datatype CookednessResult = CookednessResult(
    score: int,
    severity: CookednessSeverity,
    factors: seq<string>)

  datatype Insight = Insight(
    rootCause: string,
    suggestions: seq<string>,
    revisedPrompt: Option<string>)

  /**
   * What the user configures. Endpoints, template and extraction path are
   * stored strings only: nothing parses or validates them.
   */
  datatype AnalysisConfig = AnalysisConfig(
    oldApiEndpoint: string,
    newApiEndpoint: string,
    promptTemplate: string,
    responseExtractionPath: string,
    goal: string,
    manualQuestions: seq<string>,
    numCases: int)

  /** One committed run; `timestamp` is the commit time in milliseconds. */
  datatype AnalysisVersion = AnalysisVersion(
    id: string,
    caseId: string,
    version: int,
    timestamp: nat,
    config: AnalysisConfig,
    testCases: seq<TestCase>,
    deterministicFlags: seq<DeterministicFlag>,
    deterministicScore: int,
    judgeResult: JudgeResult,
    cookedness: CookednessResult,
    insights: Insight)
}

=== FILE: version_history.dfy ===
/**
 * The version history sheet's logic: the cookedness colour band, the goal
 * preview, the verdict icon, one entry per stored version, and what picking
 * an entry does.
 */
module VersionHistory {
  import opened Types
  import Analysis

  /** The colour a cookedness score is shown in. */
  datatype Band = Success | Warning | Destructive

  /** How alarming a band is: 0 for success, 2 for destructive. */
  function Rank(b: Band): nat {
    match b
    case Success => 0
    case Warning => 1
    case Destructive => 2
  }

  /** Three bands: up to 30, 31 to 60, above 60. */
  function CookednessColor(score: int): (b: Band)
    ensures b == Success <==> score <= 30
    ensures b == Warning <==> 30 < score <= 60
    ensures b == Destructive <==> 60 < score
  {
    if score <= 30 then Success
    else if score <= 60 then Warning
    else Destructive
  }

  /** A higher score never gets a safer colour. */
  lemma BandMonotone(a: int, b: int)
    requires a <= b
    ensures Rank(CookednessColor(a)) <= Rank(CookednessColor(b))
  {
  }

  /** The cut points: 30 is still success, 60 still warning, 61 destructive. */
  lemma BandBoundaries()
    ensures CookednessColor(30) == Success && CookednessColor(31) == Warning
    ensures CookednessColor(60) == Warning && CookednessColor(61) == Destructive
  {
  }

  /** The first fifty characters of the goal (all of it when shorter). */
  function GoalPreview(goal: string): (p: string)
    ensures |p| == if |goal| < 50 then |goal| else 50
    ensures p <= goal
  {
    if |goal| <= 50 then goal else goal[..50]
  }

  /**
   * An entry's title is the whole goal followed by `...` when the goal has
   * at most fifty characters, and its first fifty characters followed by
   * `...` otherwise.
   */
  lemma EntryTitle(v: AnalysisVersion, index: nat, count: nat)
    ensures |v.config.goal| <= 50 ==> EntryFor(v, index, count).title == v.config.goal + "..."
    ensures |v.config.goal| > 50 ==> EntryFor(v, index, count).title == v.config.goal[..50] + "..."
  {
  }

  /** The icon next to a verdict. */
  datatype VerdictIcon = TrendingUp | TrendingDown | Flat

  /** Improved and Regression have their own icons; everything else is neutral. */
  function VerdictIconOf(v: Verdict): (icon: VerdictIcon)
    ensures icon == TrendingUp <==> v == Improved
    ensures icon == TrendingDown <==> v == Regression
    ensures icon == Flat <==> v != Improved && v != Regression
  {
    match v
    case Improved => TrendingUp
    case Regression => TrendingDown
    case _ => Flat
  }

  /** What one history entry shows; `connector` is the line down to the next entry. */
  datatype Entry = Entry(
    version: AnalysisVersion,
    badge: int,
    title: string,
    verdict: Verdict,
    icon: VerdictIcon,
    score: int,
    band: Band,
    caseCount: nat,
    connector: bool)

  /** The entry for the version at `index` in a list of `count` versions. */
  function EntryFor(v: AnalysisVersion, index: nat, count: nat): (e: Entry)
    ensures e.version == v && e.badge == v.version && e.caseCount == |v.testCases|
    ensures e.verdict == v.judgeResult.verdict && e.score == v.cookedness.score
    ensures e.title == GoalPreview(v.config.goal) + "..."
    ensures e.band == CookednessColor(v.cookedness.score) && e.icon == VerdictIconOf(v.judgeResult.verdict)
    ensures e.connector <==> index + 1 < count
  {
    Entry(
      v,
      v.version,
      GoalPreview(v.config.goal) + "...",
      v.judgeResult.verdict,
      VerdictIconOf(v.judgeResult.verdict),
      v.cookedness.score,
      CookednessColor(v.cookedness.score),
      |v.testCases|,
      index < count - 1)
  }

  /** The sheet's body: a placeholder, or the list of entries. */
  datatype HistoryView = NoVersions | Listing(entries: seq<Entry>)

  /** Render the sheet for a history, most recent first. */
  function Render(versions: seq<AnalysisVersion>): (h: HistoryView)
    ensures h.NoVersions? <==> |versions| == 0
    ensures h.Listing? ==> |h.entries| == |versions|
    ensures h.Listing? ==> forall k :: 0 <= k < |versions| ==>
      h.entries[k].version == versions[k] && (h.entries[k].connector <==> k < |versions| - 1)
    ensures h.Listing? ==> forall k :: 0 <= k < |versions| ==> h.entries[k] == EntryFor(versions[k], k, |versions|)
  {
    if |versions| == 0 then NoVersions
    else Listing(seq(|versions|, k requires 0 <= k < |versions| => EntryFor(versions[k], k, |versions|)))
  }

  /** Of a numbered history, the listing shows the badges n, n-1, ..., 1 and exactly one entry without a connector. */
  lemma RenderNumberedHistory(versions: seq<AnalysisVersion>)
    requires Analysis.VersionsNumbered(versions)
    requires |versions| > 0
    ensures var es := Render(versions).entries;
      && (forall k :: 0 <= k < |es| ==> es[k].badge == |versions| - k)
      && (forall k :: 0 <= k < |es| ==> (es[k].connector <==> es[k].badge > 1))
  {
  }

  /**
   * Picking an entry loads exactly its version into the dashboard and closes
   * the sheet; the result is the new state and whether the sheet is open.
   */
  function SelectEntry(s: Analysis.State, e: Entry): (r: (Analysis.State, bool))
    ensures Analysis.Shows(r.0, e.version)
    ensures r.0.versions == s.versions && r.0.isAnalyzing == s.isAnalyzing
    ensures !r.1
  {
    (Analysis.LoadVersion(s, e.version), false)
  }

  /** Picking the `k`-th entry of the listing loads the `k`-th stored version. */
  lemma SelectLoadsListedVersion(s: Analysis.State, versions: seq<AnalysisVersion>, k: nat)
    requires k < |versions|
    ensures Render(versions).Listing?
    ensures SelectEntry(s, Render(versions).entries[k]).0 == Analysis.LoadVersion(s, versions[k])
  {
  }
}

=== FILE: wrappers.dfy ===
/** The optional-value wrapper used for the source's `?:` fields and `| null` state. */
module Wrappers {

  /** A value that may be absent: `None` plays the part of `undefined` or `null`. */
  datatype Option<+T> = None | Some(value: T)
}
